=== FILE: README.md ===
# minilisp code generator, modelled in Dafny

This project models the closure-converting code generator of minilisp (`codegen.go`). The
generator turns a parsed program of s-expressions into one C source text. Every function
literal `(fun (params...) body)` becomes a C function `fnN`. Each gets an environment record
type `fnNcontext` whose first field points at the record of the enclosing scope. Bare
identifiers compile to an access path `ctx->parent->...->x` through those records. Top-level
`def`s become fields of a global record.

The generator's state is a value `Gen`. It holds the function counter, the chain of scope
frames (innermost first, the global frame last) and the four output buffers: `main`,
functions, structs and forward declarations. The state is threaded through mutually recursive
pure functions that return the new state together with a `Result` of code or error.

Modules, in dependency order:

- `Results` (`results.dfy`): `Option` and `Result`.
- `Text` (`text.dfy`): repetition, joining, and splitting of terminator-separated text.
- `Decimal` (`decimal.dfy`): the decimal rendering of the function counter (`strconv.Itoa` on
  a non-negative number) and its reader.
- `Syntax` (`syntax.dfy`): the `SExp` tree of `main.go`. The Go struct's `Id`, `Number` and
  `List` fields are accessors that give the zero value for the other variants.
- `Scope` (`scope.dfy`): frames and identifier resolution.
- `CText` (`ctext.dfy`): the C declarations and call openings the generator writes. Forward
  declarations, field lines, copy statements, record definitions, call openings and the global
  record each come with a decoder that reads them back and a round-trip lemma for the pair.
  `MakeLambda`, `ParamDecls` and `FunctionText` only build text and have no decoder. The
  smaller pieces of expression code (`make_number(`, `ctx->name = `, the comma between
  arguments, the `;` and line break after a statement) are written in `CodeGen`, and access
  paths in `Scope`.
- `Literals` (`literals.dfy`): which forms the generator can handle without indexing past the
  end of a list, and how many function literals it meets.
- `CodeGen` (`codegen.dfy`): expression dispatch, closure conversion, definitions, the
  pre-scan, the two passes and the assembly of the output.
- `Properties` (`properties.dfy`): properties that relate several calls or the whole program.

Behaviour kept exactly as the Go code has it:

- The expression for a literal ends with `;`:
  `make_lambda(&fnN, make_context(sizeof(fnNcontext), ctx));`. Used as an argument, this is
  not valid C.
- The parent pointer of a literal defined at top level is typed `struct globalstruct *`. The
  global record is declared as `struct globalContextStruct`, so the two names differ.
- The callee of an application is not resolved through the frames. A closure call always
  reads `ctx->id`.
- An error while generating an argument is swallowed: the application's code becomes `""`
  and no error is reported.
- A parameter or definition name that is not an identifier is still recorded, under the
  name `""`.
- A name bound in no frame resolves to one `->parent` per frame and no field access.
- `ctx.parent != nil` always holds when a record is emitted, because the chain always holds
  the global frame.

Where Go would panic on an out-of-range index, the model states a precondition instead:

- `TopLevelOk` / `ProgramOk`: every top-level form is a non-empty list.
- `Generable`: every literal has at least three elements.
- `DefOk`: a well-formed definition's value is generable.

The generator's error results are kept in the model (`Err` branches). The model proves that,
under these preconditions, expression generation never actually fails.

## Model

| member | source | states |
|---|---|---|
| Scope.Walk | codegen.go:193-202 | If frame k is the first, counting from the innermost, that binds x, the walk is k `->parent` hops followed by `->x`. If no frame binds x, it is one `->parent` per frame and nothing else. |
| Scope.ResolveId | codegen.go:189-204 | An identifier's code is `ctx`, then k parent hops, then `->x` when x is first bound in frame k. An unbound name gives `ctx` followed by one hop per frame, with no error. |
| Decimal.DigitsValueOfNatToString | codegen.go:215 | Reading back the decimal text of a function number gives that number. |
| Decimal.NatToStringInjective | codegen.go:215 | Different function numbers have different decimal texts, so different literals get different `fnN` names. |
| CText.DeclEntryInjective | codegen.go:234 | Two forward declarations `struct fnNstruct` are equal exactly when their numbers are. |
| CText.DeclTextSingle | codegen.go:234 | A literal's forward declaration is `struct fnNstruct` followed by `;`. |
| CText.DeclTextRoundTrip | codegen.go:234 | A run of forward declarations, read back at the `;` separators, gives exactly the literal numbers it was written from, in order. |
| CText.DeclTextSplits | codegen.go:234 | Cutting a run of forward declarations at `;` gives one declaration per number, in order. |
| CText.FieldLinesRoundTrip | codegen.go:241-243 | A block of `value name;` lines, read back, gives exactly its names in order, as long as no name contains a line break. |
| CText.CopyLinesRoundTrip | codegen.go:252-254 | The block of `ctx->p = p;` statements, read back, gives exactly the parameters in order, as long as no name contains a line break. |
| CText.FunctionName | codegen.go:261-269 | The call opening determines the callee. Read back, `+` and `printval` give built-in calls. Every other id gives a call of the closure in `ctx->id`: its function pointer is called with the record of the same `ctx->id` as first argument. No opening is mistaken for another, and no built-in for a closure. |
| CText.RecordTextRoundTrip | codegen.go:234-244 | An environment record's definition, read back under its own name, gives its parent record type (or none) and exactly its `value` fields, in order, as long as no name contains a line break. |
| CText.RecordOfOtherName | codegen.go:234-244 | Read back under another name of the same length, a record's definition gives no parent and no fields. The decoder checks the record's name, so a record emitted under a different name is not taken for the literal's own. |
| CText.GlobalStruct | codegen.go:135-143 | The global record, read back, has exactly one `value` field per name listed, in the listed order, as long as no name contains a line break. |
| Literals.DeclNumbersFresh | codegen.go:214-217 | Numbering from c, the literals met in a form take exactly the numbers c to c + count - 1, each once. |
| Literals.ArgsNumbersFresh | codegen.go:175-185 | The same holds for a run of application arguments. |
| CodeGen.GenExpr | codegen.go:161-207 | Expression generation never fails on a generable form. It keeps the frame chain and the `main` buffer. It advances the counter by exactly the number of literals in the form, and never rewrites the struct and function buffers, only extends them. |
| CodeGen.GenApplication | codegen.go:173-186 | An application keeps the frames and the `main` buffer and advances the counter by the literals in its arguments. |
| CodeGen.GenArgs | codegen.go:174-185 | There is one code per argument. Generating the arguments advances the counter by the literals they contain and keeps the frames. |
| CodeGen.GenFunction | codegen.go:209-259 | A literal stands for `make_lambda(&fnN, ...)` where N is the counter value at its start. The frame active before it is active again afterwards, and the counter passes it and every literal in its body. |
| CodeGen.GenDef | codegen.go:145-159 | A list shorter than 3 is rejected with "Incomplete definition". A second element that is not an identifier is rejected with "Expected identifier after def". Both rejections leave the state unchanged. Otherwise the code is `ctx->name = ` followed by the value's code, and the state is the value's state. It succeeds exactly when neither error applies. |
| CodeGen.PreScan | codegen.go:100-107 | A name is global exactly when some top-level `def` with more than two elements names it. |
| CodeGen.GenForm | codegen.go:110-122 | A top-level form keeps the frames and `main`, and advances the counter by the literals the driver reaches in it. |
| CodeGen.AfterForm | codegen.go:109-122 | After a top-level form, the frames are unchanged and the counter has advanced past that form's literals. |
| CodeGen.GenForms | codegen.go:109-123 | The second pass keeps the frames and advances the counter by the literals of all forms. |
| CodeGen.ExprDeclarations | codegen.go:166-186 | Generating a form appends exactly one forward declaration per literal, in order of completion: inner literals before the literal enclosing them. |
| CodeGen.ArgsDeclarations | codegen.go:175-185 | Arguments append the forward declarations of their literals left to right. |
| CodeGen.FunctionDeclarations | codegen.go:229-234 | A literal appends its body's declarations and then its own. |
| CodeGen.FormDeclarations | codegen.go:109-122 | A top-level form appends the declarations of the literals the driver reaches in it. A malformed definition appends none. |
| CodeGen.FormsDeclarations | codegen.go:109-123 | The second pass appends the declarations of every form's literals, in program order. |
| CodeGen.Emit | codegen.go:98-123 | After both passes only the global frame is in scope. The counter equals the number of literals reached, and the forward-declaration buffer declares exactly those literals. |
| CodeGen.GenerateCode | codegen.go:125-132 | The output starts with the runtime, then the forward declarations of every literal the driver reaches. It ends with the global record, the `main` header, the `main` buffer the second pass filled, and the footer. |
| Properties.NumberCode | codegen.go:162-164 | A number is written as `make_number(` followed by its digits and `)`. A number with no digits gives the empty code. The state is unchanged. |
| Properties.IdentifierCode | codegen.go:188-204 | The code for a bare identifier x is `ctx`, then k `->parent` hops and `->x` when frame k is the first to bind x. When no frame binds x it is `ctx` followed by one hop per frame and no field. The empty name gives the empty code. The state is unchanged. |
| Properties.ExprCodeDependsOnScope | codegen.go:161-207 | The code of a form depends only on the counter and the frames in scope, not on what the buffers hold. |
| Properties.ArgsInSourceOrder | codegen.go:175-185 | The argument codes come in source order. Each argument is generated with the counter advanced past the literals of the arguments before it. |
| Properties.ApplicationCode | codegen.go:173-186 | An application's code is the callee opening, then the argument codes in source order separated by commas, then `)`. |
| Properties.LiteralBodyScope | codegen.go:210-227 | A literal's body is generated under a frame pushed on top of the defining chain. There the code for a parameter is `ctx->x`, a field of the literal's own record. The code for any other name is the code it has at the definition with one more `->parent` after `ctx`. |
| Properties.BodyResolution | codegen.go:188-204 | Under a frame pushed on a chain, a name the new frame binds resolves to its field. Any other name resolves to its access path under the old chain with one more parent hop. |
| Properties.LiteralEmission | codegen.go:234-255 | The literal appends its environment record to the struct buffer. That appended text, read back as the record of the pushed frame, gives the enclosing frame's name as parent type and one field per parameter in order, and its fields are exactly the frame's bound names. The function buffer gains the function, which copies the parameters into `ctx` in order and returns the body code. Parameter and frame names must hold no line break. |
| Properties.FormsNumbersFresh | codegen.go:214-217 | Over a whole program, numbering from c, the literals take exactly the numbers c to c + count - 1, each once. |
| Properties.ForwardDeclarationsDistinct | codegen.go:214-234 | The forward-declaration section holds one declaration per literal generated, all different. The numbers it declares are exactly 0 up to the final counter, each once. |
| Properties.FormCodeDependsOnScope | codegen.go:110-122 | A top-level form's code depends only on the counter and the frames. |
| Properties.AfterFormStatement | codegen.go:115-121 | Each top-level form appends its code and `;\n` to `main`. After an error it appends just `;\n`. |
| Properties.MainStatements | codegen.go:109-123 | `main` holds one statement per top-level form, in program order. A malformed definition leaves an empty statement and generation goes on. |
| Properties.ProgramTail | codegen.go:125-132 | The generated program ends with the global record, the `main` header, one statement per top-level form in program order (each form's code generated under the global frame alone, followed by `;`), and the footer. |
| Properties.TopLevelReference | codegen.go:100-107 | With only the global frame in scope, the code generated for a bare identifier is `ctx->x` exactly when some `def` anywhere in the program, before or after it, hoists x. Otherwise it is `ctx->parent`. |
| Properties.GlobalRecordFields | codegen.go:135-143 | In whatever order the Go map yields them, the global record declares each hoisted name exactly once and no other name. |

## Left out

- `main.go` is not part of this model: argument handling, file I/O, the participle lexer and
  parser, compiling with tcc, and unpacking its library files. All of it is I/O or calls into
  external libraries. The model starts from the parsed `SExp` tree.
- The text of the C runtime preamble (codegen.go:36-96) is a parameter of `GenerateCode`. The
  preamble is a constant the generator copies verbatim.
- Go map iteration order (codegen.go:138) is a parameter `order` of `GenerateCode`. Any
  enumeration of the global names is allowed (`IsEnumeration`).
- What the emitted C means when compiled and run, and whether it compiles, are not modelled.
  The output is treated as text.
- CodeGen.GenFunction: the Go counter is an `int`. The model's counter is unbounded, so its
  wrap-around after 2^63 literals is not modelled.
- The panics on indexing a short list (codegen.go:110, 221, 229) are not modelled as
  behaviour. They are preconditions (`TopLevelOk`, `Generable`, `DefOk`) that exclude such
  input.
- The frame not being restored on the error path (codegen.go:230-232) is modelled as written.
  That path cannot be reached, because body generation never fails under `Generable`.
- The `// ERROR` branches (codegen.go:102-104, 112-114, 118-120, 222-224) do nothing, and the
  model does nothing there either.
- CodeGen.GenerateCode: the contract fixes the head and the tail of the output. The struct
  and function buffers between them are described by Properties.LiteralEmission per literal,
  not as one whole-program text.

=== FILE: codegen.dfy ===
/** The closure-converting code generator: expressions, function literals, definitions and the
    two-pass driver, with the generator's state threaded through pure functions. */
module CodeGen {
  import opened Text
  import opened Results
  import opened Syntax
  import opened Scope
  import opened CText
  import opened Literals

  /** The generator's state: the next function number, the frames in scope (innermost first,
      the global frame last) and the four output buffers. */
  datatype Gen = Gen(
    counter: nat,
    chain: seq<Frame>,
    mainCode: string,
    functionsCode: string,
    structsCode: string,
    definitionsCode: string)

  /** The state after generating one form and the code (or error) it produced. */
  datatype Step = Step(gen: Gen, out: Result<string>)

  /** The state after generating a run of arguments and their codes (or an error). */
  datatype ArgsStep = ArgsStep(gen: Gen, out: Result<seq<string>>)

  /** Buffers are only ever appended to. */
  predicate Grows(g: Gen, g': Gen)
  {
    g.functionsCode <= g'.functionsCode && g.structsCode <= g'.structsCode
  }

  /** The parameter names of a literal, `""` for a parameter that is not an identifier. */
  function ParamIds(params: SExp): (r: seq<string>)
    ensures |r| == |Items(params)|
    ensures forall i :: 0 <= i < |r| ==> r[i] == IdText(Items(params)[i])
  {
    IdsOf(Items(params))
  }

  function IdsOf(xs: seq<SExp>): (r: seq<string>)
    ensures |r| == |xs|
    ensures forall i :: 0 <= i < |xs| ==> r[i] == IdText(xs[i])
  {
    if |xs| == 0 then [] else [IdText(xs[0])] + IdsOf(xs[1..])
  }

  function Elements(ps: seq<string>): set<string>
  {
    set p | p in ps
  }

  /** The frame pushed for literal `s` when the counter is `n`. */
  function LiteralFrame(n: nat, s: SExp): Frame
    requires IsLiteral(s) && |s.items| >= 3
  {
    Frame(FnName(n), Elements(ParamIds(s.items[1])))
  }

  /** The state in which the body of literal `s` is generated: the counter moved past the
      literal's own number and the literal's frame pushed on top of the current chain. */
  function BodyGen(g: Gen, s: SExp): Gen
    requires IsLiteral(s) && |s.items| >= 3
  {
    g.(counter := g.counter + 1, chain := [LiteralFrame(g.counter, s)] + g.chain)
  }

  /** The environment record emitted for literal `s` generated in state `g`. */
  function LiteralRecord(g: Gen, s: SExp): EnvRecord
    requires IsLiteral(s) && |s.items| >= 3
  {
    EnvRecord(FnName(g.counter), if |g.chain| > 0 then Some(g.chain[0].name) else None,
              ParamIds(s.items[1]))
  }

  /** Code for one form, in the order the Go code tries: number, literal, application,
      identifier, and the empty string for anything else. */
  function GenExpr(g: Gen, s: SExp): (r: Step)
    requires Generable(s)
    ensures r.out.Ok?
    ensures r.gen.chain == g.chain
    ensures r.gen.counter == g.counter + LiteralCount(s)
    ensures r.gen.mainCode == g.mainCode
    ensures Grows(g, r.gen)
    decreases s, 2
  {
    if NumberText(s) != "" then
      Step(g, Ok("make_number(" + NumberText(s) + ")"))
    else if IsLiteral(s) then
      var st := GenFunction(g, s);
      match st.out
      case Err(e) => Step(st.gen, Err(e))
      case Ok(code) => Step(st.gen, Ok(code))
    else if IsApplication(s) then
      GenApplication(g, s)
    else if IdText(s) != "" then
      Step(g, Ok(ResolveId(g.chain, IdText(s))))
    else
      Step(g, Ok(""))
  }

  /** Code for application `s`: the callee's opening, the argument codes joined by commas, and
      `)`; when an argument fails the whole application is the empty string and no error. */
  function GenApplication(g: Gen, s: SExp): (r: Step)
    requires IsApplication(s) && Generable(s)
    ensures r.out.Ok?
    ensures r.gen.chain == g.chain
    ensures r.gen.counter == g.counter + LiteralCount(s)
    ensures r.gen.mainCode == g.mainCode
    ensures Grows(g, r.gen)
    decreases s, 1
  {
    var st := GenArgs(g, s, 1);
    match st.out
    case Err(_) => Step(st.gen, Ok(""))
    case Ok(codes) => Step(st.gen, Ok(FunctionName(IdText(s.items[0])) + Join(codes, ",") + ")"))
  }

  /** Codes for the arguments of application `s` from position `i` on, left to right; the first
      error stops the run. */
  function GenArgs(g: Gen, s: SExp, i: nat): (r: ArgsStep)
    requires IsApplication(s) && 1 <= i <= |s.items| && ArgsGenerable(s, i)
    ensures r.out.Ok? && |r.out.value| == |s.items| - i
    ensures r.gen.chain == g.chain
    ensures r.gen.counter == g.counter + ArgsCount(s, i)
    ensures r.gen.mainCode == g.mainCode
    ensures Grows(g, r.gen)
    decreases s, 0, |s.items| - i
  {
    if i == |s.items| then
      ArgsStep(g, Ok([]))
    else
      var st := GenExpr(g, s.items[i]);
      match st.out
      case Err(e) => ArgsStep(st.gen, Err(e))
      case Ok(code) =>
        var rest := GenArgs(st.gen, s, i + 1);
        match rest.out
        case Err(e) => ArgsStep(rest.gen, Err(e))
        case Ok(codes) =>
          ArgsStep(rest.gen, Ok([code] + codes))
  }

  /** Closure conversion of literal `(fun (params...) body)`: take the next number, push the
      literal's frame, generate the body, emit the forward declaration, the environment record
      and the function, restore the frame, and stand for a fresh closure at the call site. */
  function GenFunction(g: Gen, s: SExp): (r: Step)
    requires IsLiteral(s) && Generable(s)
    ensures r.out == Ok(MakeLambda(g.counter))
    ensures r.gen.chain == g.chain
    ensures r.gen.counter == g.counter + LiteralCount(s)
    ensures r.gen.mainCode == g.mainCode
    ensures Grows(g, r.gen)
    decreases s, 1
  {
    var n := g.counter;
    var st := GenExpr(BodyGen(g, s), s.items[2]);
    match st.out
    case Err(e) => Step(st.gen, Err(e))
    case Ok(body) =>
      var rec := LiteralRecord(g, s);
      Step(st.gen.(
             definitionsCode := st.gen.definitionsCode + DeclText([n]),
             structsCode := st.gen.structsCode + RecordText(rec),
             functionsCode := st.gen.functionsCode + FunctionText(rec.name, rec.fields, body),
             chain := g.chain),
           Ok(MakeLambda(n)))
  }

  /** The forms `(def name value)` the generator accepts. */
  predicate DefOk(s: SExp)
  {
    |Items(s)| >= 3 && IdText(Items(s)[1]) != "" ==> Generable(Items(s)[2])
  }

  /** Code for a top-level definition: an assignment into the global record, or one of the two
      errors for a definition that is too short or does not name an identifier. */
  function GenDef(g: Gen, s: SExp): (r: Step)
    requires DefOk(s)
    ensures r.out.Ok? <==> |Items(s)| >= 3 && IdText(Items(s)[1]) != ""
    ensures |Items(s)| < 3 ==> r == Step(g, Err("Incomplete definition"))
    ensures |Items(s)| >= 3 && IdText(Items(s)[1]) == "" ==>
      r == Step(g, Err("Expected identifier after def"))
    ensures r.out.Ok? ==>
      var value := GenExpr(g, Items(s)[2]);
      r.gen == value.gen && r.out.value == "ctx->" + IdText(Items(s)[1]) + " = " + value.out.value
  {
    if |Items(s)| < 3 then
      Step(g, Err("Incomplete definition"))
    else if IdText(Items(s)[1]) == "" then
      Step(g, Err("Expected identifier after def"))
    else
      var st := GenExpr(g, Items(s)[2]);
      match st.out
      case Err(e) => Step(st.gen, Err(e))
      case Ok(code) => Step(st.gen, Ok("ctx->" + IdText(Items(s)[1]) + " = " + code))
  }

  // ---------------------------------------------------------------- the two-pass driver

  /** A top-level `def` the pre-scan hoists: more than two elements. */
  predicate IsHoistedDef(f: SExp)
  {
    |Items(f)| > 2 && IdText(Items(f)[0]) == "def"
  }

  /** `f` is a hoisted definition of `x`. */
  predicate Hoists(f: SExp, x: string)
  {
    IsHoistedDef(f) && IdText(Items(f)[1]) == x
  }

  /** The pre-scan over forms `i..`: adds the name of every hoisted definition to `vars`. */
  function PreScan(p: Program, i: nat, vars: set<string>): (r: set<string>)
    requires i <= |p|
    ensures forall x :: x in r <==> x in vars || exists k :: i <= k < |p| && Hoists(p[k], x)
    decreases |p| - i
  {
    if i == |p| then vars
    else if IsHoistedDef(p[i]) then PreScan(p, i + 1, vars + {IdText(Items(p[i])[1])})
    else PreScan(p, i + 1, vars)
  }

  /** The names of the global record. */
  function GlobalNames(p: Program): set<string>
  {
    PreScan(p, 0, {})
  }

  function GlobalFrame(p: Program): Frame
  {
    Frame("global", GlobalNames(p))
  }

  /** A top-level form the driver can generate without indexing past the end of a list. */
  predicate TopLevelOk(f: SExp)
  {
    f.List? && |f.items| > 0 && if IdText(f.items[0]) == "def" then DefOk(f) else Generable(f)
  }

  /** Every top-level form from position `i` on can be generated. */
  predicate FormsOk(p: Program, i: nat)
    requires i <= |p|
    decreases |p| - i
  {
    i == |p| || (TopLevelOk(p[i]) && FormsOk(p, i + 1))
  }

  predicate ProgramOk(p: Program)
  {
    FormsOk(p, 0)
  }

  /** The expression the driver generates for a top-level form: the value of a well-formed
      definition, nothing for a malformed one, the form itself otherwise. */
  function FormExpr(f: SExp): Option<SExp>
    requires f.List? && |f.items| > 0
  {
    if IdText(f.items[0]) == "def" then
      if |f.items| >= 3 && IdText(f.items[1]) != "" then Some(f.items[2]) else None
    else Some(f)
  }

  /** The number of literals the driver reaches in forms `i..`. */
  function FormsCount(p: Program, i: nat): nat
    requires i <= |p| && FormsOk(p, i)
    decreases |p| - i
  {
    if i == |p| then 0
    else
      FormCount(p[i]) + FormsCount(p, i + 1)
  }

  /** The numbers of the literals in forms `i..`, numbering from `c`, in declaration order. */
  function FormsNumbers(p: Program, i: nat, c: nat): seq<nat>
    requires i <= |p| && FormsOk(p, i)
    decreases |p| - i
  {
    if i == |p| then []
    else
      FormNumbers(p[i], c) + FormsNumbers(p, i + 1, c + FormCount(p[i]))
  }

  /** The number of literals the driver reaches in top-level form `f`. */
  function FormCount(f: SExp): nat
    requires f.List? && |f.items| > 0
  {
    match FormExpr(f) case None => 0 case Some(e) => LiteralCount(e)
  }

  /** The numbers of the literals the driver reaches in top-level form `f`, numbering from `c`. */
  function FormNumbers(f: SExp, c: nat): seq<nat>
    requires f.List? && |f.items| > 0
  {
    match FormExpr(f) case None => [] case Some(e) => DeclNumbers(e, c)
  }

  /** One top-level form: a definition goes through GenDef, anything else through GenExpr. */
  function GenForm(g: Gen, f: SExp): (r: Step)
    requires TopLevelOk(f)
    ensures r.gen.chain == g.chain
    ensures r.gen.counter == g.counter + FormCount(f)
    ensures r.gen.mainCode == g.mainCode
  {
    if IdText(f.items[0]) == "def" then GenDef(g, f) else GenExpr(g, f)
  }

  /** The state after one top-level form: its code, or nothing after an error, becomes one
      statement of `main`. */
  function AfterForm(g: Gen, f: SExp): (r: Gen)
    requires TopLevelOk(f)
    ensures r.chain == g.chain
    ensures r.counter == g.counter + FormCount(f)
  {
    var st := GenForm(g, f);
    var code := match st.out case Ok(c) => c case Err(_) => "";
    st.gen.(mainCode := st.gen.mainCode + code + ";\n")
  }

  /** The second pass over forms `i..`: each form becomes one statement of `main`; an error
      leaves an empty statement. */
  function GenForms(g: Gen, p: Program, i: nat): (r: Gen)
    requires i <= |p| && FormsOk(p, i)
    ensures r.chain == g.chain
    ensures r.counter == g.counter + FormsCount(p, i)
    decreases |p| - i
  {
    if i == |p| then g
    else
      GenForms(AfterForm(g, p[i]), p, i + 1)
  }

  // ---------------------------------------------------------------- forward declarations

  /** Generating `s` appends exactly the forward declarations of its literals, in the order
      DeclNumbers gives them. */
  lemma {:induction false} ExprDeclarations(g: Gen, s: SExp)
    requires Generable(s)
    ensures GenExpr(g, s).gen.definitionsCode == g.definitionsCode + DeclText(DeclNumbers(s, g.counter))
    decreases s, 2
  {
    if NumberText(s) != "" {
    } else if IsLiteral(s) {
      FunctionDeclarations(g, s);
    } else if IsApplication(s) {
      ArgsDeclarations(g, s, 1);
    }
  }

  lemma {:induction false} ArgsDeclarations(g: Gen, s: SExp, i: nat)
    requires IsApplication(s) && 1 <= i <= |s.items| && ArgsGenerable(s, i)
    ensures GenArgs(g, s, i).gen.definitionsCode
      == g.definitionsCode + DeclText(ArgsNumbers(s, i, g.counter))
    decreases s, 0, |s.items| - i
  {
    if i < |s.items| {
      var st := GenExpr(g, s.items[i]);
      ExprDeclarations(g, s.items[i]);
      ArgsDeclarations(st.gen, s, i + 1);
      DeclsInTwoRuns(GenArgs(g, s, i).gen.definitionsCode, g.definitionsCode,
                     st.gen.definitionsCode, DeclNumbers(s.items[i], g.counter),
                     ArgsNumbers(s, i + 1, st.gen.counter), ArgsNumbers(s, i, g.counter));
    }
  }

  lemma {:induction false} FunctionDeclarations(g: Gen, s: SExp)
    requires IsLiteral(s) && Generable(s)
    ensures GenFunction(g, s).gen.definitionsCode
      == g.definitionsCode + DeclText(DeclNumbers(s, g.counter))
    decreases s, 1
  {
    var n := g.counter;
    var st := GenExpr(BodyGen(g, s), s.items[2]);
    assert GenFunction(g, s).gen.definitionsCode == st.gen.definitionsCode + DeclText([n]);
    ExprDeclarations(BodyGen(g, s), s.items[2]);
    DeclNumbersOfLiteral(s, n);
    DeclsInTwoRuns(GenFunction(g, s).gen.definitionsCode, g.definitionsCode,
                   st.gen.definitionsCode, DeclNumbers(s.items[2], n + 1), [n], DeclNumbers(s, n));
  }

  /** Declarations appended in two runs, spelled out over plain values so that none of the
      generator's definitions is in view while the texts are compared. */
  lemma DeclsInTwoRuns(total: string, buffer: string, middle: string, a: seq<nat>,
                       b: seq<nat>, all: seq<nat>)
    requires total == middle + DeclText(b) && middle == buffer + DeclText(a) && all == a + b
    ensures total == buffer + DeclText(all)
  {
    AppendDecls(buffer, a, b);
  }

  lemma FormDeclarations(g: Gen, f: SExp)
    requires TopLevelOk(f)
    ensures AfterForm(g, f).definitionsCode == g.definitionsCode + DeclText(FormNumbers(f, g.counter))
  {
    if IdText(f.items[0]) == "def" {
      if |f.items| >= 3 && IdText(f.items[1]) != "" {
        ExprDeclarations(g, f.items[2]);
      } else {
        assert DeclText([]) == "";
      }
    } else {
      ExprDeclarations(g, f);
    }
  }

  lemma {:induction false} FormsDeclarations(g: Gen, p: Program, i: nat)
    requires i <= |p| && FormsOk(p, i)
    ensures GenForms(g, p, i).definitionsCode == g.definitionsCode + DeclText(FormsNumbers(p, i, g.counter))
    decreases |p| - i
  {
    if i == |p| {
      assert DeclText([]) == "";
    } else {
      var next := AfterForm(g, p[i]);
      FormDeclarations(g, p[i]);
      FormsDeclarations(next, p, i + 1);
      DeclsInTwoRuns(GenForms(g, p, i).definitionsCode, g.definitionsCode, next.definitionsCode,
                     FormNumbers(p[i], g.counter), FormsNumbers(p, i + 1, next.counter),
                     FormsNumbers(p, i, g.counter));
    }
  }

  /** The state before the second pass: counter 0, only the global frame, empty buffers. */
  function Initial(p: Program): Gen
  {
    Gen(0, [GlobalFrame(p)], "", "", "", "")
  }

  /** The state after both passes. */
  function Emit(p: Program): (r: Gen)
    requires ProgramOk(p)
    ensures r.chain == [GlobalFrame(p)]
    ensures r.counter == FormsCount(p, 0)
    ensures r.definitionsCode == DeclText(FormsNumbers(p, 0, 0))
  {
    FormsDeclarations(Initial(p), p, 0);
    GenForms(Initial(p), p, 0)
  }

  /** `order` lists every element of `names` exactly once: one iteration over a Go map. */
  predicate IsEnumeration(order: seq<string>, names: set<string>)
  {
    Distinct(order) && (forall i :: 0 <= i < |order| ==> order[i] in names)
    && forall x :: x in names ==> x in order
  }

  /** The whole C program: the runtime preamble, forward declarations, environment records,
      functions, the global record and `main`. The preamble is a parameter and `order` is the
      order in which the Go map of global names happens to be iterated. */
  function GenerateCode(p: Program, runtime: string, order: seq<string>): (r: string)
    requires ProgramOk(p)
    requires IsEnumeration(order, GlobalNames(p))
    ensures runtime + "\n\n" + DeclText(FormsNumbers(p, 0, 0)) + "\n\n" <= r
    ensures var tail := GlobalStruct(order) + MainHeader + Emit(p).mainCode + MainFooter;
      |tail| <= |r| && r[|r| - |tail|..] == tail
  {
    var st := Emit(p);
    var head := runtime + "\n\n" + st.definitionsCode + "\n\n";
    var middle := st.structsCode + "\n\n" + st.functionsCode + "\n\n";
    var tail := GlobalStruct(order) + MainHeader + st.mainCode + MainFooter;
    Sandwich(head, middle, tail);
    head + middle + tail
  }
}

=== FILE: ctext.dfy ===
/** The pieces of C text the generator writes, each with the decoder that reads it back. */
module CText {
  import opened Text
  import opened Decimal
  import opened Results

  /** The name of the function generated for the literal numbered `n`. */
  function FnName(n: nat): string
  {
    "fn" + NatToString(n)
  }

  /** The expression a function literal numbered `n` stands for at its call site: a closure
      pairing the function with a fresh environment record whose parent is the current `ctx`. */
  function MakeLambda(n: nat): string
  {
    "make_lambda(&" + FnName(n) + ", make_context(sizeof(" + FnName(n) + "context), ctx));"
  }

  // ---------------------------------------------------------------- forward declarations

  /** The text around the number in a forward declaration. */
  function DeclOpen(): string { "struct fn" }
  function DeclClose(): string { "struct" }

  /** The forward declaration of the environment-record type of literal `n`, without its `;`. */
  function DeclEntry(n: nat): string
  {
    "struct " + FnName(n) + "struct"
  }

  function DeclEntries(ns: seq<nat>): (r: seq<string>)
    ensures |r| == |ns|
    ensures forall i :: 0 <= i < |ns| ==> r[i] == DeclEntry(ns[i])
  {
    if |ns| == 0 then [] else [DeclEntry(ns[0])] + DeclEntries(ns[1..])
  }

  /** The forward declarations of the literals numbered `ns`, in that order. */
  function DeclText(ns: seq<nat>): string
  {
    Terminated(DeclEntries(ns), ';')
  }

  /** The literal number a forward declaration names (0 for text of another shape). */
  function DeclaredNumber(e: string): nat
  {
    var open, close := DeclOpen(), DeclClose();
    if |e| >= |open| + |close| && e[..|open|] == open && e[|e| - |close|..] == close
       && AllDigits(e[|open|..|e| - |close|])
    then DigitsValue(e[|open|..|e| - |close|])
    else 0
  }

  function DeclaredNumbersOf(es: seq<string>): (r: seq<nat>)
    ensures |r| == |es|
    ensures forall i :: 0 <= i < |es| ==> r[i] == DeclaredNumber(es[i])
  {
    if |es| == 0 then [] else [DeclaredNumber(es[0])] + DeclaredNumbersOf(es[1..])
  }

  /** The literal numbers a forward-declaration section declares, in order. */
  function DeclaredNumbers(t: string): seq<nat>
  {
    DeclaredNumbersOf(Split(t, ';'))
  }

  lemma DeclEntryShape(n: nat)
    ensures ';' !in DeclEntry(n)
    ensures DeclaredNumber(DeclEntry(n)) == n
  {
    var e := DeclEntry(n);
    var d := NatToString(n);
    assert e == DeclOpen() + d + DeclClose();
    assert e[..|DeclOpen()|] == DeclOpen();
    assert e[|e| - |DeclClose()|..] == DeclClose();
    assert e[|DeclOpen()|..|e| - |DeclClose()|] == d;
    DigitsValueOfNatToString(n);
    assert forall i :: 0 <= i < |d| ==> d[i] != ';';
  }

  /** Reading a forward-declaration section gives back exactly the numbers it was written from. */
  lemma DeclTextRoundTrip(ns: seq<nat>)
    ensures DeclaredNumbers(DeclText(ns)) == ns
  {
    var es := DeclEntries(ns);
    forall i | 0 <= i < |ns|
      ensures ';' !in es[i] && DeclaredNumber(es[i]) == ns[i]
    {
      DeclEntryShape(ns[i]);
    }
    SplitTerminated(es, ';');
  }

  /** Cutting a forward-declaration section at its `;` gives one declaration per number. */
  lemma DeclTextSplits(ns: seq<nat>)
    ensures Split(DeclText(ns), ';') == DeclEntries(ns)
  {
    var es := DeclEntries(ns);
    forall i | 0 <= i < |ns|
      ensures ';' !in es[i]
    {
      DeclEntryShape(ns[i]);
    }
    SplitTerminated(es, ';');
  }

  /** Distinct literal numbers are declared by distinct declarations. */
  lemma DeclEntryInjective(a: nat, b: nat)
    ensures DeclEntry(a) == DeclEntry(b) <==> a == b
  {
    if DeclEntry(a) == DeclEntry(b) {
      DeclEntryShape(a);
      DeclEntryShape(b);
    }
  }

  lemma {:induction false} DeclEntriesAppend(a: seq<nat>, b: seq<nat>)
    ensures DeclEntries(a + b) == DeclEntries(a) + DeclEntries(b)
  {
    if |a| > 0 {
      assert (a + b)[1..] == a[1..] + b;
      DeclEntriesAppend(a[1..], b);
    } else {
      assert a + b == b;
    }
  }

  /** Declaring two runs of literals one after the other declares their concatenation. */
  lemma DeclTextAppend(a: seq<nat>, b: seq<nat>)
    ensures DeclText(a + b) == DeclText(a) + DeclText(b)
  {
    DeclEntriesAppend(a, b);
    TerminatedAppend(DeclEntries(a), DeclEntries(b), ';');
  }

  /** Appending two runs of declarations to a buffer appends their concatenation. */
  lemma AppendDecls(buffer: string, a: seq<nat>, b: seq<nat>)
    ensures buffer + DeclText(a) + DeclText(b) == buffer + DeclText(a + b)
  {
    DeclTextAppend(a, b);
  }

  /** The declaration of a single literal, as the generator appends it. */
  lemma DeclTextSingle(n: nat)
    ensures DeclText([n]) == DeclEntry(n) + ";"
  {
    var e := DeclEntry(n);
    assert DeclEntries([n]) == [e];
    assert Terminated([e], ';') == e + [';'] + Terminated([], ';');
  }

  // ---------------------------------------------------------------- value fields

  /** The text around the name in a field line. */
  function FieldOpen(): string { "value " }
  function FieldClose(): string { ";" }

  /** One `value` field of a struct, without its line break. */
  function FieldEntry(indent: string, name: string): string
  {
    indent + FieldOpen() + name + FieldClose()
  }

  function FieldEntries(indent: string, names: seq<string>): (r: seq<string>)
    ensures |r| == |names|
    ensures forall i :: 0 <= i < |names| ==> r[i] == FieldEntry(indent, names[i])
  {
    if |names| == 0 then [] else [FieldEntry(indent, names[0])] + FieldEntries(indent, names[1..])
  }

  /** One `value` field per name, in order, one per line. */
  function FieldLines(indent: string, names: seq<string>): string
  {
    Terminated(FieldEntries(indent, names), '\n')
  }

  /** The field name a field line declares. */
  function FieldName(indent: string, line: string): string
  {
    if |line| >= |indent| + |FieldOpen()| + |FieldClose()|
    then line[|indent| + |FieldOpen()|..|line| - |FieldClose()|]
    else ""
  }

  function FieldNamesOf(indent: string, lines: seq<string>): (r: seq<string>)
    ensures |r| == |lines|
    ensures forall i :: 0 <= i < |lines| ==> r[i] == FieldName(indent, lines[i])
  {
    if |lines| == 0 then [] else [FieldName(indent, lines[0])] + FieldNamesOf(indent, lines[1..])
  }

  /** The names of the fields a block of field lines declares, in order. */
  function FieldNames(indent: string, t: string): seq<string>
  {
    FieldNamesOf(indent, Split(t, '\n'))
  }

  /** Reading a block of field lines gives back exactly its names, in order, provided no name
      and no indentation contains a line break. */
  lemma FieldLinesRoundTrip(indent: string, names: seq<string>)
    requires '\n' !in indent
    requires forall i :: 0 <= i < |names| ==> '\n' !in names[i]
    ensures FieldNames(indent, FieldLines(indent, names)) == names
  {
    var es := FieldEntries(indent, names);
    forall i | 0 <= i < |names|
      ensures '\n' !in es[i] && FieldName(indent, es[i]) == names[i]
    {
      var e := es[i];
      assert e == indent + FieldOpen() + names[i] + FieldClose();
      assert e[|indent| + |FieldOpen()|..|e| - |FieldClose()|] == names[i];
    }
    SplitTerminated(es, '\n');
  }

  // ---------------------------------------------------------------- parameter copies

  /** The text around the two occurrences of the parameter in a copy statement. */
  function CopyOpen(): string { "ctx->" }
  function CopyMid(): string { " = " }
  function CopyClose(): string { ";" }

  /** The statement that stores parameter `p` into the environment record, without its line break. */
  function CopyEntry(p: string): string
  {
    CopyOpen() + p + CopyMid() + p + CopyClose()
  }

  function CopyEntries(ps: seq<string>): (r: seq<string>)
    ensures |r| == |ps|
    ensures forall i :: 0 <= i < |ps| ==> r[i] == CopyEntry(ps[i])
  {
    if |ps| == 0 then [] else [CopyEntry(ps[0])] + CopyEntries(ps[1..])
  }

  /** One copy statement per parameter, in order, one per line. */
  function CopyLines(ps: seq<string>): string
  {
    Terminated(CopyEntries(ps), '\n')
  }

  /** The parameter a copy statement stores. */
  function CopiedName(line: string): string
  {
    var fixed := |CopyOpen()| + |CopyMid()| + |CopyClose()|;
    if |line| >= fixed then line[|CopyOpen()|..|CopyOpen()| + (|line| - fixed) / 2] else ""
  }

  function CopiedNamesOf(lines: seq<string>): (r: seq<string>)
    ensures |r| == |lines|
    ensures forall i :: 0 <= i < |lines| ==> r[i] == CopiedName(lines[i])
  {
    if |lines| == 0 then [] else [CopiedName(lines[0])] + CopiedNamesOf(lines[1..])
  }

  /** The parameters a block of copy statements stores, in order. */
  function CopiedNames(t: string): seq<string>
  {
    CopiedNamesOf(Split(t, '\n'))
  }

  /** Reading a block of copy statements gives back exactly the parameters, in order. */
  lemma CopyLinesRoundTrip(ps: seq<string>)
    requires forall i :: 0 <= i < |ps| ==> '\n' !in ps[i]
    ensures CopiedNames(CopyLines(ps)) == ps
  {
    var es := CopyEntries(ps);
    forall i | 0 <= i < |ps|
      ensures '\n' !in es[i] && CopiedName(es[i]) == ps[i]
    {
      var e := es[i];
      assert |e| == 2 * |ps[i]| + |CopyOpen()| + |CopyMid()| + |CopyClose()|;
      assert e[|CopyOpen()|..|CopyOpen()| + |ps[i]|] == ps[i];
    }
    SplitTerminated(es, '\n');
  }

  // ---------------------------------------------------------------- records and functions

  /** The layout of one literal's environment record: its function name, the record type name
      of the enclosing frame (if any), and one field per parameter. */
  datatype EnvRecord = EnvRecord(name: string, parent: Option<string>, fields: seq<string>)

  /** The parent-pointer field of a record, without its line break. */
  function ParentEntry(p: string): string
  {
    ParentOpen() + p + ParentClose()
  }

  /** The text around the parent's name in a parent-pointer field. */
  function ParentOpen(): string { "struct " }
  function ParentClose(): string { "struct *parent;" }

  /** The parent-pointer line, present when the record has an enclosing frame. */
  function ParentLine(parent: Option<string>): string
  {
    match parent
    case None => ""
    case Some(p) => ParentEntry(p) + "\n"
  }

  function RecordHead(name: string): string
  {
    "\n\ntypedef struct " + name + "struct{\n"
  }

  function RecordTail(name: string): string
  {
    "} " + name + "context ;\n"
  }

  /** The struct definition of an environment record. */
  function RecordText(rec: EnvRecord): string
  {
    RecordHead(rec.name) + ParentLine(rec.parent) + FieldLines("", rec.fields) + RecordTail(rec.name)
  }

  /** The lines between the head and the tail of the definition of record `name`; none when
      the text is not a definition of that record. */
  function RecordLines(name: string, t: string): seq<string>
  {
    var head, tail := RecordHead(name), RecordTail(name);
    if |t| >= |head| + |tail| && t[..|head|] == head && t[|t| - |tail|..] == tail
    then Split(t[|head|..|t| - |tail|], '\n')
    else []
  }

  /** A line that declares the parent pointer rather than a `value` field. */
  predicate IsParentEntry(line: string)
  {
    |line| >= |ParentOpen()| + |ParentClose()| && line[..|ParentOpen()|] == ParentOpen()
  }

  /** The parent record type a record definition names, if it has a parent pointer. */
  function RecordParent(name: string, t: string): Option<string>
  {
    var ls := RecordLines(name, t);
    if |ls| > 0 && IsParentEntry(ls[0]) then Some(ls[0][|ParentOpen()|..|ls[0]| - |ParentClose()|]) else None
  }

  /** The `value` fields a record definition declares, in order. */
  function RecordFields(name: string, t: string): seq<string>
  {
    var ls := RecordLines(name, t);
    if |ls| > 0 && IsParentEntry(ls[0]) then FieldNamesOf("", ls[1..]) else FieldNamesOf("", ls)
  }

  /** The parent-pointer entry as a list of at most one line. */
  function ParentEntries(parent: Option<string>): seq<string>
  {
    match parent
    case None => []
    case Some(p) => [ParentEntry(p)]
  }

  /** The text between the head and the tail of a record definition. */
  lemma RecordMiddle(rec: EnvRecord)
    ensures var head, tail := RecordHead(rec.name), RecordTail(rec.name);
      var t := RecordText(rec);
      |t| >= |head| + |tail| && t[..|head|] == head && t[|t| - |tail|..] == tail
      && t[|head|..|t| - |tail|] == Terminated(ParentEntries(rec.parent) + FieldEntries("", rec.fields), '\n')
  {
    var ps, fs := ParentEntries(rec.parent), FieldEntries("", rec.fields);
    Inner(RecordHead(rec.name), ParentLine(rec.parent), FieldLines("", rec.fields), RecordTail(rec.name));
    ParentLineTerminated(rec.parent);
    TerminatedAppend(ps, fs, '\n');
  }

  /** What lies between a head and a tail. */
  lemma Inner(head: string, a: string, b: string, tail: string)
    ensures var t := head + a + b + tail;
      |t| >= |head| + |tail| && t[..|head|] == head && t[|t| - |tail|..] == tail
      && t[|head|..|t| - |tail|] == a + b
  {
    var t := head + a + b + tail;
    assert t == head + (a + b) + tail;
  }

  lemma ParentLineTerminated(parent: Option<string>)
    ensures ParentLine(parent) == Terminated(ParentEntries(parent), '\n')
  {
    match parent {
      case None =>
      case Some(p) =>
        assert Terminated([ParentEntry(p)], '\n') == ParentEntry(p) + ['\n'] + Terminated([], '\n');
    }
  }

  /** The lines of a record definition are its parent entry, if any, then its fields. */
  lemma RecordLinesShape(rec: EnvRecord)
    requires rec.parent.Some? ==> '\n' !in rec.parent.value
    requires forall i :: 0 <= i < |rec.fields| ==> '\n' !in rec.fields[i]
    ensures RecordLines(rec.name, RecordText(rec)) == ParentEntries(rec.parent) + FieldEntries("", rec.fields)
  {
    RecordMiddle(rec);
    RecordEntriesNoBreak(rec.parent, rec.fields);
    LinesOfRecord(rec.name, RecordText(rec), ParentEntries(rec.parent) + FieldEntries("", rec.fields));
  }

  /** The definition of one record is not read as that of another record whose name has the
      same length: it has no lines under that name, so neither a parent nor fields. */
  lemma RecordOfOtherName(rec: EnvRecord, name: string)
    requires |name| == |rec.name| && name != rec.name
    ensures RecordLines(name, RecordText(rec)) == []
    ensures RecordParent(name, RecordText(rec)) == None && RecordFields(name, RecordText(rec)) == []
  {
    var t, head, own := RecordText(rec), RecordHead(name), RecordHead(rec.name);
    var open := "\n\ntypedef struct ";
    assert |own| == |head| <= |t| && t[..|head|] == own;
    assert own != head by {
      assert own[|open|..|open| + |name|] == rec.name;
      assert head[|open|..|open| + |name|] == name;
    }
  }

  /** Text whose part between the head and the tail is a run of break-free lines has exactly
      those lines. */
  lemma LinesOfRecord(name: string, t: string, ls: seq<string>)
    requires |t| >= |RecordHead(name)| + |RecordTail(name)|
    requires t[..|RecordHead(name)|] == RecordHead(name) && t[|t| - |RecordTail(name)|..] == RecordTail(name)
    requires t[|RecordHead(name)|..|t| - |RecordTail(name)|] == Terminated(ls, '\n')
    requires forall i :: 0 <= i < |ls| ==> '\n' !in ls[i]
    ensures RecordLines(name, t) == ls
  {
    SplitTerminated(ls, '\n');
  }

  lemma RecordEntriesNoBreak(parent: Option<string>, fields: seq<string>)
    requires parent.Some? ==> '\n' !in parent.value
    requires forall i :: 0 <= i < |fields| ==> '\n' !in fields[i]
    ensures var ls := ParentEntries(parent) + FieldEntries("", fields);
      forall i :: 0 <= i < |ls| ==> '\n' !in ls[i]
  {
    var ps, fs := ParentEntries(parent), FieldEntries("", fields);
    FieldEntriesNoBreak(fields);
    if parent.Some? {
      ParentEntryNoBreak(parent.value);
    }
    NoBreakConcat(ps, fs);
  }

  lemma ParentEntryNoBreak(p: string)
    requires '\n' !in p
    ensures '\n' !in ParentEntry(p)
  {
    assert ParentEntry(p) == ParentOpen() + p + ParentClose();
  }

  /** Two runs of lines without line breaks make one. */
  lemma NoBreakConcat(a: seq<string>, b: seq<string>)
    requires forall i :: 0 <= i < |a| ==> '\n' !in a[i]
    requires forall i :: 0 <= i < |b| ==> '\n' !in b[i]
    ensures forall i :: 0 <= i < |a + b| ==> '\n' !in (a + b)[i]
  {
    forall i | 0 <= i < |a + b|
      ensures '\n' !in (a + b)[i]
    {
      if i >= |a| {
        assert (a + b)[i] == b[i - |a|];
      }
    }
  }

  lemma FieldEntriesNoBreak(names: seq<string>)
    requires forall i :: 0 <= i < |names| ==> '\n' !in names[i]
    ensures var fs := FieldEntries("", names); forall i :: 0 <= i < |fs| ==> '\n' !in fs[i]
  {
    var fs := FieldEntries("", names);
    forall i | 0 <= i < |fs|
      ensures '\n' !in fs[i]
    {
      assert fs[i] == FieldOpen() + names[i] + FieldClose();
    }
  }

  /** A field line is never taken for the parent pointer, and reads back to its name. */
  lemma FieldEntriesDecode(names: seq<string>)
    ensures var fs := FieldEntries("", names);
      (|fs| > 0 ==> !IsParentEntry(fs[0])) && FieldNamesOf("", fs) == names
  {
    var fs := FieldEntries("", names);
    forall i | 0 <= i < |fs|
      ensures FieldName("", fs[i]) == names[i] && fs[i][0] == 'v'
    {
      var e := fs[i];
      assert e == FieldOpen() + names[i] + FieldClose();
      assert e[|FieldOpen()|..|e| - |FieldClose()|] == names[i];
    }
    if |fs| > 0 {
      assert fs[0][..|ParentOpen()|][0] == 'v';
    }
  }

  /** The parent line is recognised as such and reads back to the parent's name. */
  lemma ParentEntryDecode(p: string)
    ensures var e := ParentEntry(p); IsParentEntry(e) && e[|ParentOpen()|..|e| - |ParentClose()|] == p
  {
    var e := ParentEntry(p);
    assert e[|ParentOpen()|..|e| - |ParentClose()|] == p;
    assert e[..|ParentOpen()|] == ParentOpen();
  }

  /** Record text whose lines are a parent entry (if any) and field lines reads back to that
      parent and those fields. */
  lemma DecodeRecordLines(name: string, t: string, parent: Option<string>, fields: seq<string>)
    requires RecordLines(name, t) == ParentEntries(parent) + FieldEntries("", fields)
    ensures RecordParent(name, t) == parent
    ensures RecordFields(name, t) == fields
  {
    var fs := FieldEntries("", fields);
    var ls := RecordLines(name, t);
    FieldEntriesDecode(fields);
    match parent {
      case Some(p) =>
        var e := ParentEntry(p);
        ParentEntryDecode(p);
        assert ls[0] == e && ls[1..] == fs;
      case None =>
        assert ls == fs;
    }
  }

  /** Reading a record definition back gives its parent and its fields, in order, provided no
      name contains a line break. */
  lemma RecordTextRoundTrip(rec: EnvRecord)
    requires rec.parent.Some? ==> '\n' !in rec.parent.value
    requires forall i :: 0 <= i < |rec.fields| ==> '\n' !in rec.fields[i]
    ensures RecordParent(rec.name, RecordText(rec)) == rec.parent
    ensures RecordFields(rec.name, RecordText(rec)) == rec.fields
  {
    RecordLinesShape(rec);
    DecodeRecordLines(rec.name, RecordText(rec), rec.parent, rec.fields);
  }

  function ParamDecls(ps: seq<string>): string
  {
    if |ps| == 0 then "" else ", value " + ps[0] + ParamDecls(ps[1..])
  }

  /** The C function of a literal: it takes the record and the parameters, stores the parameters
      into the record, and returns the body's value. */
  function FunctionText(name: string, ps: seq<string>, body: string): string
  {
    "value " + name + "(" + name + "context* ctx" + ParamDecls(ps) + ") {\n"
    + CopyLines(ps) + "return " + body + ";\n}\n"
  }

  // ---------------------------------------------------------------- callees

  /** What a call opening calls: a function of the C runtime, or the closure stored in the
      field `id` of the environment. */
  datatype Callee = Builtin(name: string) | Closure(id: string)

  /** The text that opens a call: a built-in for `+` and `printval`, otherwise a call through the
      function pointer stored in `ctx->id`, passing the record stored beside it first. The
      opening determines the callee: a built-in is never confused with a closure call, and
      different closures open different calls. */
  function FunctionName(id: string): (r: string)
    ensures CalleeOf(r) == Some(if id == "+" || id == "printval" then Builtin(id) else Closure(id))
  {
    if id == "+" then "plus("
    else if id == "printval" then "printval("
    else
      ClosureOpeningDecodes(id);
      ClosureOpening(id)
  }

  /** The text around the two occurrences of the callee in a closure call's opening: the
      function pointer of `ctx->id` is called with the record of the same `ctx->id` first. */
  function CallOpen(): string { "ctx->" }
  function CallMid(): string { ".actualValue.fun->fun(" + "ctx->" }
  function CallClose(): string { ".actualValue.fun->ctx," }

  /** The opening of a call to the closure stored in field `id`. */
  function ClosureOpening(id: string): string
  {
    CallOpen() + id + CallMid() + id + CallClose()
  }

  /** A closure call's opening reads back to that closure. */
  lemma ClosureOpeningDecodes(id: string)
    ensures CalleeOf(ClosureOpening(id)) == Some(Closure(id))
  {
    var r := ClosureOpening(id);
    var fixed := |CallOpen()| + |CallMid()| + |CallClose()|;
    assert |r| == 2 * |id| + fixed;
    assert r != "plus(" && r != "printval(" by {
      assert |r| >= fixed && fixed > 9;
    }
    assert (|r| - fixed) / 2 == |id|;
    assert r[|CallOpen()|..|CallOpen()| + |id|] == id;
  }

  /** The callee a call opening names; none for text that opens no call. */
  function CalleeOf(opening: string): Option<Callee>
  {
    if opening == "plus(" then Some(Builtin("+"))
    else if opening == "printval(" then Some(Builtin("printval"))
    else
      var fixed := |CallOpen()| + |CallMid()| + |CallClose()|;
      if |opening| >= fixed && (|opening| - fixed) % 2 == 0 then
        var id := opening[|CallOpen()|..|CallOpen()| + (|opening| - fixed) / 2];
        if opening == ClosureOpening(id) then Some(Closure(id)) else None
      else None
  }

  // ---------------------------------------------------------------- whole program

  /** The text around the fields of the global record. */
  function GlobalStructOpen(): string { "struct globalContextStruct {\n" }
  function GlobalStructClose(): string { "};\n" }

  /** The global environment record, one field per global name in the given order; read back,
      it gives exactly those names in that order when no name contains a line break. */
  function GlobalStruct(order: seq<string>): (r: string)
    ensures (forall i :: 0 <= i < |order| ==> '\n' !in order[i]) ==> GlobalStructFields(r) == order
  {
    var open, close := GlobalStructOpen(), GlobalStructClose();
    var r := open + FieldLines("  ", order) + close;
    Inner(open, FieldLines("  ", order), "", close);
    assert r == open + FieldLines("  ", order) + "" + close;
    if forall i :: 0 <= i < |order| ==> '\n' !in order[i] then
      FieldLinesRoundTrip("  ", order);
      r
    else
      r
  }

  /** The field names a global-record definition declares, in order; none for text that is not
      such a definition. */
  function GlobalStructFields(t: string): seq<string>
  {
    var open, close := GlobalStructOpen(), GlobalStructClose();
    if |t| >= |open| + |close| && t[..|open|] == open && t[|t| - |close|..] == close
    then FieldNames("  ", t[|open|..|t| - |close|])
    else []
  }

  const MainHeader: string :=
    "int main() {\nstruct globalContextStruct c;\nstruct globalContextStruct *ctx = &c;\n"

  const MainFooter: string := "\n return 0;\n}"
}

=== FILE: decimal.dfy ===
/** Decimal rendering of function numbers, as `strconv.Itoa` writes a non-negative int. */
module Decimal {

  predicate IsDigit(c: char)
  {
    '0' <= c <= '9'
  }

  predicate AllDigits(s: string)
  {
    forall i :: 0 <= i < |s| ==> IsDigit(s[i])
  }

  function DigitChar(d: nat): (c: char)
    requires d < 10
    ensures IsDigit(c)
    ensures c as int - '0' as int == d
  {
    ('0' as int + d) as char
  }

  /** The decimal text of `n`, most significant digit first, without leading zeros. */
  function NatToString(n: nat): (r: string)
    ensures |r| > 0
    ensures AllDigits(r)
  {
    if n < 10 then [DigitChar(n)] else NatToString(n / 10) + [DigitChar(n % 10)]
  }

  /** The number a string of decimal digits denotes. */
  function DigitsValue(s: string): nat
    requires AllDigits(s)
  {
    if |s| == 0 then 0 else 10 * DigitsValue(s[..|s| - 1]) + (s[|s| - 1] as int - '0' as int)
  }

  /** Reading the decimal text back gives the number: the rendering loses nothing. */
  lemma {:induction false} DigitsValueOfNatToString(n: nat)
    ensures DigitsValue(NatToString(n)) == n
  {
    var s := NatToString(n);
    if n >= 10 {
      assert s[..|s| - 1] == NatToString(n / 10);
      DigitsValueOfNatToString(n / 10);
    }
  }

  /** Distinct numbers have distinct decimal texts. */
  lemma NatToStringInjective(a: nat, b: nat)
    requires NatToString(a) == NatToString(b)
    ensures a == b
  {
    DigitsValueOfNatToString(a);
    DigitsValueOfNatToString(b);
  }
}

=== FILE: literals.dfy ===
/** Which forms generation visits, and the numbers function literals receive, stated
    independently of the generator's state. */
module Literals {
  import opened Text
  import opened Syntax

  /** A function literal `(fun (params...) body)`. */
  predicate IsLiteral(s: SExp)
  {
    HeadIs(s, "fun")
  }

  /** An application `(callee args...)`: any other non-empty list. */
  predicate IsApplication(s: SExp)
  {
    s.List? && |s.items| > 0 && !IsLiteral(s)
  }

  /** Generation of `s` never indexes past the end of a list: every function literal it reaches
      has a parameter list and a body. The head of an application and a literal's parameter list
      are not generated, so they are not constrained. */
  predicate Generable(s: SExp)
    decreases s, 1
  {
    if IsLiteral(s) then |s.items| >= 3 && Generable(s.items[2])
    else if IsApplication(s) then ArgsGenerable(s, 1)
    else true
  }

  /** Every argument of application `s` from position `i` on is generable. */
  predicate ArgsGenerable(s: SExp, i: nat)
    requires s.List? && 1 <= i <= |s.items|
    decreases s, 0, |s.items| - i
  {
    i == |s.items| || (Generable(s.items[i]) && ArgsGenerable(s, i + 1))
  }

  /** The number of function literals generation of `s` reaches. */
  function LiteralCount(s: SExp): nat
    decreases s, 1
  {
    if IsLiteral(s) then 1 + (if |s.items| >= 3 then LiteralCount(s.items[2]) else 0)
    else if IsApplication(s) then ArgsCount(s, 1)
    else 0
  }

  /** The number of function literals in the arguments of application `s` from position `i` on. */
  function ArgsCount(s: SExp, i: nat): nat
    requires s.List? && 1 <= i <= |s.items|
    decreases s, 0, |s.items| - i
  {
    if i == |s.items| then 0 else LiteralCount(s.items[i]) + ArgsCount(s, i + 1)
  }

  /** The numbers of the literals in `s` when numbering starts at `c` and each literal takes
      the next number when its generation starts, listed in the order their generation
      finishes: a literal's nested literals before the literal itself. */
  function DeclNumbers(s: SExp, c: nat): seq<nat>
    decreases s, 1
  {
    if IsLiteral(s) then (if |s.items| >= 3 then DeclNumbers(s.items[2], c + 1) else []) + [c]
    else if IsApplication(s) then ArgsNumbers(s, 1, c)
    else []
  }

  /** A complete literal's numbers are its body's, numbered from the next counter value, and
      then its own. */
  lemma DeclNumbersOfLiteral(s: SExp, c: nat)
    requires IsLiteral(s) && |s.items| >= 3
    ensures DeclNumbers(s, c) == DeclNumbers(s.items[2], c + 1) + [c]
  {
  }

  /** The same for the arguments of application `s` from position `i` on, left to right. */
  function ArgsNumbers(s: SExp, i: nat, c: nat): seq<nat>
    requires s.List? && 1 <= i <= |s.items|
    decreases s, 0, |s.items| - i
  {
    if i == |s.items| then []
    else DeclNumbers(s.items[i], c) + ArgsNumbers(s, i + 1, c + LiteralCount(s.items[i]))
  }

  /** Every element of `ns` lies in `[lo, hi)`. */
  predicate Within(ns: seq<nat>, lo: nat, hi: nat)
  {
    forall k :: 0 <= k < |ns| ==> lo <= ns[k] < hi
  }

  lemma DisjointConcat(a: seq<nat>, la: nat, ha: nat, b: seq<nat>, lb: nat, hb: nat)
    requires Within(a, la, ha) && Within(b, lb, hb) && Distinct(a) && Distinct(b)
    requires ha <= lb || hb <= la
    ensures Distinct(a + b)
  {
    forall i, j | 0 <= i < j < |a + b|
      ensures (a + b)[i] != (a + b)[j]
    {
      if j < |a| {
        assert (a + b)[i] == a[i] && (a + b)[j] == a[j];
      } else if i >= |a| {
        assert (a + b)[i] == b[i - |a|] && (a + b)[j] == b[j - |a|];
      } else {
        assert (a + b)[i] == a[i] && (a + b)[j] == b[j - |a|];
      }
    }
  }

  /** Numbers from two adjacent ranges lie in the union of the ranges. */
  lemma WithinConcat(a: seq<nat>, b: seq<nat>, lo: nat, mid: nat, hi: nat)
    requires lo <= mid <= hi && Within(a, lo, mid) && Within(b, mid, hi)
    ensures Within(a + b, lo, hi)
  {
    forall k | 0 <= k < |a + b|
      ensures lo <= (a + b)[k] < hi
    {
      if k < |a| {
        assert (a + b)[k] == a[k];
      } else {
        assert (a + b)[k] == b[k - |a|];
      }
    }
  }

  /** The literals reached from `s` with numbering started at `c` take exactly the numbers
      `c .. c + LiteralCount(s) - 1`, each once. */
  lemma {:induction false} DeclNumbersFresh(s: SExp, c: nat)
    ensures |DeclNumbers(s, c)| == LiteralCount(s)
    ensures Within(DeclNumbers(s, c), c, c + LiteralCount(s))
    ensures Distinct(DeclNumbers(s, c))
    decreases s, 1
  {
    if IsLiteral(s) {
      var inner := if |s.items| >= 3 then DeclNumbers(s.items[2], c + 1) else [];
      if |s.items| >= 3 {
        DeclNumbersFresh(s.items[2], c + 1);
      }
      DisjointConcat(inner, c + 1, c + LiteralCount(s), [c], c, c + 1);
    } else if IsApplication(s) {
      ArgsNumbersFresh(s, 1, c);
    }
  }

  /** The same for the arguments of application `s` from position `i` on. */
  lemma {:induction false} ArgsNumbersFresh(s: SExp, i: nat, c: nat)
    requires s.List? && 1 <= i <= |s.items|
    ensures |ArgsNumbers(s, i, c)| == ArgsCount(s, i)
    ensures Within(ArgsNumbers(s, i, c), c, c + ArgsCount(s, i))
    ensures Distinct(ArgsNumbers(s, i, c))
    decreases s, 0, |s.items| - i
  {
    if i < |s.items| {
      var m := c + LiteralCount(s.items[i]);
      DeclNumbersFresh(s.items[i], c);
      ArgsNumbersFresh(s, i + 1, m);
      DisjointConcat(DeclNumbers(s.items[i], c), c, m,
                     ArgsNumbers(s, i + 1, m), m, m + ArgsCount(s, i + 1));
      WithinConcat(DeclNumbers(s.items[i], c), ArgsNumbers(s, i + 1, m), c, m, m + ArgsCount(s, i + 1));
    }
  }
}

=== FILE: properties.dfy ===
/** Properties of the generator that relate several calls or the whole program. */
module Properties {
  import opened Text
  import opened Results
  import opened Syntax
  import opened Scope
  import opened CText
  import opened Literals
  import opened CodeGen

  // ---------------------------------------------------------------- expressions

  /** A number is written as a call of the runtime's `make_number` on its digits; a number with
      no digits falls through to the empty code. The state is unchanged. */
  lemma NumberCode(g: Gen, digits: string)
    ensures var st := GenExpr(g, Number(digits));
      st.gen == g && st.out == Ok(if digits == "" then "" else "make_number(" + digits + ")")
  {
  }

  /** A bare identifier is written as its access path from `ctx`: when frame k is the first that
      binds it, k parent hops and then the field; when no frame binds it, one parent hop per
      frame and no field. The empty name gives the empty code. The state is unchanged. */
  lemma IdentifierCode(g: Gen, x: string)
    ensures var st := GenExpr(g, Id(x));
      && st.gen == g
      && (x == "" ==> st.out == Ok(""))
      && (x != "" ==> forall k: nat :: BoundFirstAt(g.chain, x, k) ==> st.out == Ok("ctx" + Hops(k) + "->" + x))
      && (x != "" && Unbound(g.chain, x) ==> st.out == Ok("ctx" + Hops(|g.chain|)))
  {
    if x != "" {
      assert GenExpr(g, Id(x)).out == Ok(ResolveId(g.chain, x));
    }
  }

  /** The code of a form depends only on the counter and the frames in scope, not on what the
      buffers already hold. */
  lemma {:induction false} ExprCodeDependsOnScope(g1: Gen, g2: Gen, s: SExp)
    requires Generable(s) && g1.counter == g2.counter && g1.chain == g2.chain
    ensures GenExpr(g1, s).out == GenExpr(g2, s).out
    decreases s, 1
  {
    if NumberText(s) == "" && !IsLiteral(s) && IsApplication(s) {
      ArgsCodeDependsOnScope(g1, g2, s, 1);
    }
  }

  lemma {:induction false} ArgsCodeDependsOnScope(g1: Gen, g2: Gen, s: SExp, i: nat)
    requires IsApplication(s) && 1 <= i <= |s.items| && ArgsGenerable(s, i)
    requires g1.counter == g2.counter && g1.chain == g2.chain
    ensures GenArgs(g1, s, i).out == GenArgs(g2, s, i).out
    decreases s, 0, |s.items| - i
  {
    if i < |s.items| {
      ExprCodeDependsOnScope(g1, g2, s.items[i]);
      ArgsCodeDependsOnScope(GenExpr(g1, s.items[i]).gen, GenExpr(g2, s.items[i]).gen, s, i + 1);
    }
  }

  /** A state with the given counter and frames and empty buffers. */
  function Fresh(c: nat, chain: seq<Frame>): Gen
  {
    Gen(c, chain, "", "", "", "")
  }

  /** The argument codes of application `s` from position `i` on, each generated under the same
      frames with the counter advanced past the literals of the arguments before it. */
  function ArgCodes(c: nat, chain: seq<Frame>, s: SExp, i: nat): seq<string>
    requires IsApplication(s) && 1 <= i <= |s.items| && ArgsGenerable(s, i)
    decreases |s.items| - i
  {
    if i == |s.items| then []
    else
      [GenExpr(Fresh(c, chain), s.items[i]).out.value]
      + ArgCodes(c + LiteralCount(s.items[i]), chain, s, i + 1)
  }

  lemma {:induction false} ArgsInSourceOrder(g: Gen, s: SExp, i: nat)
    requires IsApplication(s) && 1 <= i <= |s.items| && ArgsGenerable(s, i)
    ensures GenArgs(g, s, i).out.value == ArgCodes(g.counter, g.chain, s, i)
    decreases |s.items| - i
  {
    if i < |s.items| {
      var st := GenExpr(g, s.items[i]);
      var rest := GenArgs(st.gen, s, i + 1);
      assert GenArgs(g, s, i).out.value == [st.out.value] + rest.out.value;
      ExprCodeDependsOnScope(g, Fresh(g.counter, g.chain), s.items[i]);
      ArgsInSourceOrder(st.gen, s, i + 1);
    }
  }

  /** An application is the callee's opening, the argument codes in source order separated by
      commas, and `)`; argument `k` is generated after all literals of arguments before it. */
  lemma ApplicationCode(g: Gen, s: SExp)
    requires IsApplication(s) && Generable(s)
    ensures GenExpr(g, s).out.value
         == FunctionName(IdText(s.items[0])) + Join(ArgCodes(g.counter, g.chain, s, 1), ",") + ")"
  {
    ArgsInSourceOrder(g, s, 1);
  }

  // ---------------------------------------------------------------- function literals

  /** Inside a literal's body, the code for a parameter is a field of the literal's own record,
      and the code for any other name goes through one more parent hop than the code for the
      same name at the literal's definition. */
  lemma LiteralBodyScope(g: Gen, s: SExp, x: string)
    requires IsLiteral(s) && |s.items| >= 3
    ensures var inner := BodyGen(g, s);
      var here, outer := GenExpr(inner, Id(x)).out.value, GenExpr(g, Id(x)).out.value;
      && inner.chain[1..] == g.chain
      && (x != "" && x in ParamIds(s.items[1]) ==> here == "ctx->" + x)
      && (x != "" && x !in ParamIds(s.items[1]) ==>
            |outer| >= 3 && outer[..3] == "ctx" && here == "ctx->parent" + outer[3..])
  {
    var inner := BodyGen(g, s);
    assert inner.chain[1..] == g.chain;
    if x != "" {
      IdentifierCode(inner, x);
      IdentifierCode(g, x);
      BodyResolution(g.chain, inner.chain, x);
    }
  }

  /** Under a frame pushed on `outer`, a name the new frame binds is its field, and any other
      name is reached through one more parent hop than under `outer`. */
  lemma BodyResolution(outer: seq<Frame>, inner: seq<Frame>, x: string)
    requires |inner| > 0 && inner[1..] == outer
    ensures x in inner[0].vars ==> ResolveId(inner, x) == "ctx->" + x
    ensures x !in inner[0].vars ==>
      |ResolveId(outer, x)| >= 3 && ResolveId(outer, x)[..3] == "ctx"
      && ResolveId(inner, x) == "ctx->parent" + ResolveId(outer, x)[3..]
  {
    var w := Walk(outer, x);
    assert ResolveId(outer, x) == "ctx" + w;
    assert ResolveId(outer, x)[3..] == w;
    if x !in inner[0].vars {
      assert Walk(inner, x) == "->parent" + w;
      assert "ctx" + ("->parent" + w) == "ctx->parent" + w;
    }
  }

  /** A literal's environment record mirrors the frame pushed for it: same name, the enclosing
      frame's record as parent, one field per parameter in order; its function stores the
      parameters in that order and returns the body generated under that frame. The record text
      the literal appends reads back to the enclosing frame's name and the parameter names. */
  lemma LiteralEmission(g: Gen, s: SExp)
    requires IsLiteral(s) && Generable(s)
    requires forall i :: 0 <= i < |Items(s.items[1])| ==> '\n' !in IdText(Items(s.items[1])[i])
    requires |g.chain| > 0 ==> '\n' !in g.chain[0].name
    ensures var body := GenExpr(BodyGen(g, s), s.items[2]);
      var r := GenFunction(g, s);
      var rec := LiteralRecord(g, s);
      var frame := LiteralFrame(g.counter, s);
      var added := r.gen.structsCode[|body.gen.structsCode|..];
      && body.gen.structsCode <= r.gen.structsCode
      && RecordParent(frame.name, added) == (if |g.chain| > 0 then Some(g.chain[0].name) else None)
      && RecordFields(frame.name, added) == ParamIds(s.items[1])
      && (forall x :: x in frame.vars <==> x in RecordFields(frame.name, added))
      && r.gen.functionsCode == body.gen.functionsCode + FunctionText(rec.name, rec.fields, body.out.value)
      && CopiedNames(CopyLines(rec.fields)) == ParamIds(s.items[1])
  {
    var body := GenExpr(BodyGen(g, s), s.items[2]);
    var r := GenFunction(g, s);
    var rec := LiteralRecord(g, s);
    var ps := ParamIds(s.items[1]);
    assert r.gen.structsCode == body.gen.structsCode + RecordText(rec);
    assert r.gen.structsCode[|body.gen.structsCode|..] == RecordText(rec);
    RecordTextRoundTrip(rec);
    CopyLinesRoundTrip(ps);
  }

  // ---------------------------------------------------------------- the whole program

  lemma {:induction false} FormsNumbersFresh(p: Program, i: nat, c: nat)
    requires i <= |p| && FormsOk(p, i)
    ensures |FormsNumbers(p, i, c)| == FormsCount(p, i)
    ensures Within(FormsNumbers(p, i, c), c, c + FormsCount(p, i))
    ensures Distinct(FormsNumbers(p, i, c))
    decreases |p| - i
  {
    if i < |p| {
      var m := c + FormCount(p[i]);
      match FormExpr(p[i]) {
        case None =>
        case Some(e) => DeclNumbersFresh(e, c);
      }
      FormsNumbersFresh(p, i + 1, m);
      var here, rest := FormNumbers(p[i], c), FormsNumbers(p, i + 1, m);
      assert |here| == FormCount(p[i]) && Within(here, c, m) && Distinct(here);
      DisjointConcat(here, c, m, rest, m, m + FormsCount(p, i + 1));
      WithinConcat(here, rest, c, m, m + FormsCount(p, i + 1));
    }
  }

  /** The forward-declaration section holds one declaration per literal generated, pairwise
      distinct, and the literals are numbered 0 up to the final counter, each number once. */
  lemma ForwardDeclarationsDistinct(p: Program)
    requires ProgramOk(p)
    ensures var decls := Split(Emit(p).definitionsCode, ';');
      |decls| == Emit(p).counter && Distinct(decls)
    ensures var ns := DeclaredNumbers(Emit(p).definitionsCode);
      |ns| == Emit(p).counter && Distinct(ns) && Within(ns, 0, Emit(p).counter)
  {
    var e := Emit(p);
    var ns := FormsNumbers(p, 0, 0);
    assert e.definitionsCode == DeclText(ns) && e.counter == FormsCount(p, 0);
    FormsNumbersFresh(p, 0, 0);
    DeclTextSplits(ns);
    DeclTextRoundTrip(ns);
    var decls := DeclEntries(ns);
    forall i, j | 0 <= i < j < |decls|
      ensures decls[i] != decls[j]
    {
      DeclEntryInjective(ns[i], ns[j]);
    }
  }

  /** The code a top-level form leaves in `main`: its code, or nothing after an error. */
  function Statement(g: Gen, f: SExp): string
    requires TopLevelOk(f)
  {
    (match GenForm(g, f).out case Ok(c) => c case Err(_) => "") + ";\n"
  }

  lemma FormCodeDependsOnScope(g1: Gen, g2: Gen, f: SExp)
    requires TopLevelOk(f) && g1.counter == g2.counter && g1.chain == g2.chain
    ensures GenForm(g1, f).out == GenForm(g2, f).out
  {
    if IdText(f.items[0]) != "def" {
      ExprCodeDependsOnScope(g1, g2, f);
    } else if |f.items| >= 3 && IdText(f.items[1]) != "" {
      ExprCodeDependsOnScope(g1, g2, f.items[2]);
    }
  }

  /** The statements of forms `i..`, each generated under the same frames with the counter
      advanced past the literals of the forms before it. */
  function StatementsFrom(c: nat, chain: seq<Frame>, p: Program, i: nat): string
    requires i <= |p| && FormsOk(p, i)
    decreases |p| - i
  {
    if i == |p| then ""
    else Statement(Fresh(c, chain), p[i]) + StatementsFrom(c + FormCount(p[i]), chain, p, i + 1)
  }

  /** A top-level form appends its statement to `main`, whatever the buffers held before. */
  lemma AfterFormStatement(g: Gen, f: SExp)
    requires TopLevelOk(f)
    ensures AfterForm(g, f).mainCode == g.mainCode + Statement(Fresh(g.counter, g.chain), f)
  {
    FormCodeDependsOnScope(g, Fresh(g.counter, g.chain), f);
  }

  lemma GenFormsStep(g: Gen, p: Program, i: nat)
    requires i < |p| && FormsOk(p, i)
    ensures GenForms(g, p, i) == GenForms(AfterForm(g, p[i]), p, i + 1)
  {
  }

  lemma StatementsFromStep(c: nat, chain: seq<Frame>, p: Program, i: nat)
    requires i < |p| && FormsOk(p, i)
    ensures StatementsFrom(c, chain, p, i)
         == Statement(Fresh(c, chain), p[i]) + StatementsFrom(c + FormCount(p[i]), chain, p, i + 1)
  {
  }

  /** The buffer after one more form, spelled out over plain strings so that none of the
      generator's definitions is in view while the concatenations are compared. */
  lemma BufferAfterStep(total: string, start: string, middle: string, here: string,
                        rest: string, whole: string)
    requires total == middle + rest && middle == start + here && whole == here + rest
    ensures total == start + whole
  {
  }

  /** `main` holds one statement per top-level form, in program order; a malformed definition
      leaves an empty statement and generation goes on. */
  lemma {:induction false} MainStatements(g: Gen, p: Program, i: nat)
    requires i <= |p| && FormsOk(p, i)
    ensures GenForms(g, p, i).mainCode == g.mainCode + StatementsFrom(g.counter, g.chain, p, i)
    decreases |p| - i
  {
    if i < |p| {
      var here := Statement(Fresh(g.counter, g.chain), p[i]);
      var rest := StatementsFrom(g.counter + FormCount(p[i]), g.chain, p, i + 1);
      StatementsFromStep(g.counter, g.chain, p, i);
      var next := AfterForm(g, p[i]);
      GenFormsStep(g, p, i);
      MainStatements(next, p, i + 1);
      AfterFormStatement(g, p[i]);
      BufferAfterStep(GenForms(g, p, i).mainCode, g.mainCode, next.mainCode, here, rest,
                      StatementsFrom(g.counter, g.chain, p, i));
    } else {
      assert StatementsFrom(g.counter, g.chain, p, i) == "";
    }
  }

  /** The code for a bare identifier at top level is a field of the global record exactly when
      some top-level definition, before or after it, binds that name; otherwise the walk passes
      the global frame. */
  lemma TopLevelReference(g: Gen, p: Program, x: string)
    requires g.chain == [GlobalFrame(p)]
    ensures GenExpr(g, Id(x)).out.value
         == if x == "" then ""
            else if exists k :: 0 <= k < |p| && Hoists(p[k], x) then "ctx->" + x
            else "ctx->parent"
  {
    IdentifierCode(g, x);
    if x != "" {
      if x in GlobalNames(p) {
        assert BoundFirstAt(g.chain, x, 0);
      } else {
        assert Unbound(g.chain, x);
      }
    }
  }

  /** The global record has exactly one field per hoisted name, whatever order the map gives. */
  lemma GlobalRecordFields(p: Program, order: seq<string>)
    requires IsEnumeration(order, GlobalNames(p))
    requires forall x :: x in GlobalNames(p) ==> '\n' !in x
    ensures var fields := GlobalStructFields(GlobalStruct(order));
      Distinct(fields) && forall x :: x in fields <==> exists k :: 0 <= k < |p| && Hoists(p[k], x)
  {
    assert forall i :: 0 <= i < |order| ==> '\n' !in order[i];
    HoistedEnumeration(GlobalStructFields(GlobalStruct(order)), p);
  }

  /** Any enumeration of the global names lists each hoisted name once and nothing else. */
  lemma HoistedEnumeration(fields: seq<string>, p: Program)
    requires IsEnumeration(fields, GlobalNames(p))
    ensures Distinct(fields) && forall x :: x in fields <==> exists k :: 0 <= k < |p| && Hoists(p[k], x)
  {
  }

  /** The generated program ends with the global record and a `main` that holds one statement
      per top-level form, in program order, each generated under the global frame alone. */
  lemma ProgramTail(p: Program, runtime: string, order: seq<string>)
    requires ProgramOk(p)
    requires IsEnumeration(order, GlobalNames(p))
    ensures var r := GenerateCode(p, runtime, order);
      var tail := GlobalStruct(order) + MainHeader + StatementsFrom(0, [GlobalFrame(p)], p, 0) + MainFooter;
      |tail| <= |r| && r[|r| - |tail|..] == tail
  {
    var statements := StatementsFrom(0, [GlobalFrame(p)], p, 0);
    MainStatements(Initial(p), p, 0);
    assert Emit(p).mainCode == "" + statements == statements;
  }
}

=== FILE: results.dfy ===
/** Optional values and the (code, error) pairs the generator's Go functions return. */
module Results {

  datatype Option<+T> = None | Some(value: T)

  /** `Ok(v)` is a nil error with value `v`; `Err(msg)` carries the message of `errors.New(msg)`. */
  datatype Result<+T> = Ok(value: T) | Err(msg: string)
}

=== FILE: scope.dfy ===
/** Generation-time scope frames and the resolution of a bare identifier to an access path. */
module Scope {
  import opened Text

  /** A scope frame: the name of the environment record it describes and the names it binds. */
  datatype Frame = Frame(name: string, vars: set<string>)

  /** `k` parent hops from the current environment record. */
  function Hops(k: nat): string
  {
    Repeat("->parent", k)
  }

  /** `x` is bound in frame `k` of `chain` (0 is the innermost) and in no frame inside it. */
  predicate BoundFirstAt(chain: seq<Frame>, x: string, k: nat)
  {
    k < |chain| && x in chain[k].vars && forall j :: 0 <= j < k ==> x !in chain[j].vars
  }

  /** No frame of `chain` binds `x`. */
  predicate Unbound(chain: seq<Frame>, x: string)
  {
    forall j :: 0 <= j < |chain| ==> x !in chain[j].vars
  }

  /** The walk up the frame chain: one parent hop per frame passed, then the field access. */
  function Walk(chain: seq<Frame>, x: string): (r: string)
    ensures forall k: nat :: BoundFirstAt(chain, x, k) ==> r == Hops(k) + "->" + x
    ensures Unbound(chain, x) ==> r == Hops(|chain|)
  {
    if |chain| == 0 then ""
    else if x in chain[0].vars then "->" + x
    else
      BoundPastHead(chain, x);
      "->parent" + Walk(chain[1..], x)
  }

  /** When the innermost frame does not bind `x`, the first binding frame is one further out
      in the chain without its head. */
  lemma BoundPastHead(chain: seq<Frame>, x: string)
    requires |chain| > 0 && x !in chain[0].vars
    ensures forall k: nat :: BoundFirstAt(chain, x, k) ==>
      k > 0 && BoundFirstAt(chain[1..], x, k - 1) && Hops(k) == "->parent" + Hops(k - 1)
    ensures Unbound(chain, x) ==> Unbound(chain[1..], x)
  {
    forall k: nat | BoundFirstAt(chain, x, k)
      ensures k > 0 && BoundFirstAt(chain[1..], x, k - 1)
    {
      assert forall j :: 0 <= j < k - 1 ==> chain[1..][j] == chain[j + 1];
    }
  }

  /** The code for a bare identifier `x` read under the frames `chain`. */
  function ResolveId(chain: seq<Frame>, x: string): (r: string)
    ensures forall k: nat :: BoundFirstAt(chain, x, k) ==> r == "ctx" + Hops(k) + "->" + x
    ensures Unbound(chain, x) ==> r == "ctx" + Hops(|chain|)
  {
    "ctx" + Walk(chain, x)
  }
}

=== FILE: syntax.dfy ===
/** The parsed program the generator consumes: the `SExp` tree of main.go. */
module Syntax {

  /** One form: an identifier, a number literal (its digit text) or a parenthesised list. */
  datatype SExp = Id(name: string) | Number(digits: string) | List(items: seq<SExp>)

  /** A program is its top-level forms in source order. */
  type Program = seq<SExp>

  /** The Go struct's `Id` field: the name of an identifier, empty for anything else. */
  function IdText(s: SExp): string
  {
    if s.Id? then s.name else ""
  }

  /** The Go struct's `Number` field. */
  function NumberText(s: SExp): string
  {
    if s.Number? then s.digits else ""
  }

  /** The Go struct's `List` field: the elements of a list, empty for anything else. */
  function Items(s: SExp): seq<SExp>
  {
    if s.List? then s.items else []
  }

  /** True when `s` is a non-empty list whose first element is the identifier `keyword`. */
  predicate HeadIs(s: SExp, keyword: string)
  {
    s.List? && |s.items| > 0 && IdText(s.items[0]) == keyword
  }
}

=== FILE: text.dfy ===
/** Sequence and string helpers: distinctness, repetition, separated and terminated lists, and
    splitting. */
module Text {

  /** `s` written `k` times in a row. */
  function Repeat(s: string, k: nat): string
  {
    if k == 0 then "" else s + Repeat(s, k - 1)
  }

  /** True when no element occurs twice. */
  predicate Distinct<T(==)>(s: seq<T>)
  {
    forall i, j :: 0 <= i < j < |s| ==> s[i] != s[j]
  }

  /** The parts separated by `sep`, written the way a builder does it: the first part alone,
      every later part preceded by `sep`. */
  function Join(parts: seq<string>, sep: string): string
  {
    if |parts| == 0 then ""
    else if |parts| == 1 then parts[0]
    else parts[0] + sep + Join(parts[1..], sep)
  }

  /** Position of the first `d` in `t`, or `|t|` when `t` has none. */
  function IndexOf(t: string, d: char): (k: nat)
    ensures k <= |t|
    ensures forall i :: 0 <= i < k ==> t[i] != d
    ensures k < |t| ==> t[k] == d
  {
    if |t| == 0 then 0
    else if t[0] == d then 0
    else 1 + IndexOf(t[1..], d)
  }

  /** Every part followed by the terminator `d`. */
  function Terminated(parts: seq<string>, d: char): string
  {
    if |parts| == 0 then "" else parts[0] + [d] + Terminated(parts[1..], d)
  }

  /** `t` cut at every `d`: the pieces between terminators, plus an unterminated tail if any. */
  function Split(t: string, d: char): seq<string>
    decreases |t|
  {
    if |t| == 0 then []
    else
      var k := IndexOf(t, d);
      if k == |t| then [t] else [t[..k]] + Split(t[k + 1..], d)
  }

  /** A concatenation starts with its first part and ends with its last. */
  lemma Sandwich(head: string, middle: string, tail: string)
    ensures head <= head + middle + tail
    ensures var t := head + middle + tail; t[|t| - |tail|..] == tail
  {
    var t := head + middle + tail;
    assert t[..|head|] == head;
    assert t[|t| - |tail|..] == tail;
  }

  lemma {:induction false} TerminatedAppend(a: seq<string>, b: seq<string>, d: char)
    ensures Terminated(a + b, d) == Terminated(a, d) + Terminated(b, d)
  {
    if |a| == 0 {
      assert a + b == b;
    } else {
      assert (a + b)[1..] == a[1..] + b;
      TerminatedAppend(a[1..], b, d);
    }
  }

  lemma FirstTerminator(a: string, d: char, b: string)
    requires d !in a
    ensures IndexOf(a + [d] + b, d) == |a|
  {
    var t := a + [d] + b;
    assert t[|a|] == d;
    assert forall i :: 0 <= i < |a| ==> t[i] == a[i];
  }

  /** Splitting undoes terminating, provided no part contains the terminator. */
  lemma {:induction false} SplitTerminated(parts: seq<string>, d: char)
    requires forall i :: 0 <= i < |parts| ==> d !in parts[i]
    ensures Split(Terminated(parts, d), d) == parts
  {
    if |parts| > 0 {
      var t := Terminated(parts, d);
      var rest := Terminated(parts[1..], d);
      assert t == parts[0] + [d] + rest;
      FirstTerminator(parts[0], d, rest);
      assert t[..|parts[0]|] == parts[0];
      assert t[|parts[0]| + 1..] == rest;
      SplitTerminated(parts[1..], d);
    }
  }
}
